=== FILE: README.md ===
# Image processing tool: compression, enhancement menu and CLI, in Dafny

This project models the pure logic of a small interactive image tool. The
rest of the tool is calls into OpenCV, PyWavelets and pickle.

- **Compression pipeline** (`topics/image_compression.py`). A grey image is
  split by a one-level Haar transform into the subband record
  `(cA, (cH, cV, cD))`. Every coefficient is then rounded to the nearest
  multiple of the quantization step, with NumPy's ties-to-even rule. The
  result passes through a placeholder entropy coder and a pickle file round
  trip, is decoded and reconstructed, and is compared with the input by PSNR.
  Coefficients are ideal reals. The Haar pair `dwt2`/`idwt2` and the
  grey conversion are uninterpreted function parameters (`Compression.Library`).
- **Enhancement menu** (`topics/image_enhancement.py`). The brightness factor
  is clamped to [0, 5] and the contrast factor to [1, 5]. Sharpening uses a
  fixed 3x3 kernel. Menu answers `1`..`6` each pick one filter; any other
  answer returns the image unchanged. The filters are uninterpreted
  parameters (`Enhancement.Filters`).
- **Command line** (`main.py`). The script checks the argument count and maps
  the menu choice to a window title. It then asks whether to save, and
  derives the output name `stem_title.ext` from a path split on `"."`.
  Image reading is a parameter; the two topic `main`s are wired in by
  `Cli.TopicIo`.

Modules: `Wrappers` (Option), `RealArith` (absolute values and squares),
`Rounding` (round half to even), `Matrices` (sample grids), `Quantization`,
`Fidelity` (MSE and PSNR), `Coding` (entropy coder and pickle), `Compression`
(the pipeline `main`), `Enhancement`, `Filenames` (`str.split` and `join`),
`Cli` (main.py).

Three points about the code shape the model:
- The code never checks the quantization step. The model accepts any
  non-zero step, including negative ones, because `main` parses a signed
  integer. The error bound is therefore stated as `|step| / 2`.
- The file round trip is pickle, and the model treats it as exact.
- PSNR need not be non-increasing in the step, and coefficient by coefficient
  the error is not monotone: `Quantization.ErrorNotMonotoneInStep` shows that
  3 is exact with step 3 but lands on 4 with step 2.

## Model

| member | source | states |
|---|---|---|
| Rounding.RoundHalfEven | topics/image_compression.py:15-18 | `np.round` of `c / step` is an integer within one half of its argument, and the even neighbour when the argument is exactly halfway |
| Rounding.RoundHalfEvenCharacterized | topics/image_compression.py:15-18 | an integer is within one half and even on ties if and only if it is the rounding, so the rounding rule has exactly one result |
| Rounding.RoundNegate | topics/image_compression.py:15-18 | half-even rounding is symmetric about zero: rounding `-x` gives minus the rounding of `x` |
| Rounding.TiesGoToEven | topics/image_compression.py:15-18 | the ties 0.5, 1.5, 2.5, -0.5, -1.5 round to 0, 2, 2, 0, -2 |
| Quantization.QuantizeCoeff | topics/image_compression.py:15-18 | a quantized coefficient is a whole multiple of the step and lies within half a step of the input |
| Quantization.QuantizeCoeffFixedPoints | topics/image_compression.py:15-18 | quantization leaves a coefficient unchanged exactly when it is already a multiple of the step |
| Quantization.QuantizeCoeffIdempotent | topics/image_compression.py:15-18 | quantizing a coefficient twice with the same step gives the same result as quantizing once |
| Quantization.QuantizeCoeffSymmetric | topics/image_compression.py:15-18 | a negated step gives the same quantization, and a negated coefficient gives the negated quantization |
| Quantization.LevelNegate | topics/image_compression.py:15-18 | the quantization level `np.round(c / step)` changes sign when the step or the coefficient changes sign |
| Quantization.Quantize | topics/image_compression.py:13-19 | `scalar_quantization` keeps the `(cA, (cH, cV, cD))` structure, applies the same per-coefficient rule to each subband independently, and keeps four equal-shape subbands equal-shape |
| Quantization.QuantizeBound | topics/image_compression.py:14-18 | every quantized coefficient of every subband is within half a step of its original and lies on the step grid |
| Quantization.QuantizeFixedPoints | topics/image_compression.py:14-19 | a subband set is unchanged by quantization exactly when all its coefficients are multiples of the step |
| Quantization.QuantizeIdempotent | topics/image_compression.py:14-19 | quantizing an already quantized subband set with the same step returns it unchanged |
| Quantization.QuantizeZero | topics/image_compression.py:15-18 | zero quantizes to zero, and an all-zero subband set is unchanged |
| Quantization.ErrorNotMonotoneInStep | topics/image_compression.py:15-18 | the quantization error does not shrink as the step shrinks: 3 is exact with step 3 but becomes 4 with step 2 |
| Fidelity.SumSqDiffZero | topics/image_compression.py:40 | the summed squared difference of two equal-shape grids is non-negative, and zero if and only if the grids are identical |
| Fidelity.Mse | topics/image_compression.py:40 | the MSE is undefined for an empty grid, otherwise non-negative and zero if and only if original and reconstruction are identical |
| Fidelity.Psnr | topics/image_compression.py:39-45 | `calculate_psnr` gives `+inf` exactly for identical non-empty images; a finite value exactly from the positive MSE of the two images; no number for empty images; and an error for shapes that cannot be subtracted |
| Fidelity.PsnrOfIdentical | topics/image_compression.py:41-42 | an image compared with itself has PSNR `+inf` |
| Fidelity.MseBounded | topics/image_compression.py:40 | if every squared difference is at most a bound, the mean of them is at most that bound |
| Fidelity.QuantizationMseBound | topics/image_compression.py:15-18 | the MSE between a subband and its quantization is at most a quarter of the squared step |
| Coding.EntropyEncode | topics/image_compression.py:22-29 | `entropy_decode` recovers exactly what `entropy_encode` was given |
| Coding.EntropyRoundTrip | topics/image_compression.py:59-71 | the chain encode, pickle dump, pickle load, decode gives back every subband set exactly |
| Coding.Dump | topics/image_compression.py:63-68 | loading the pickled file returns exactly the value that was dumped |
| Compression.Decompose | topics/image_compression.py:7-10 | `subband_decomposition` is one `dwt2` call with the default wavelet `haar` |
| Compression.Reconstruct | topics/image_compression.py:32-35 | `subband_reconstruction` repacks the subbands as `(cA, (cH, cV, cD))` and makes one `idwt2` call with the default wavelet `haar` |
| Compression.CompressImage | topics/image_compression.py:47-81 | the returned image is the reconstruction of the quantized decomposition of the grey input, because the coding stages and the file round trip change nothing, and the PSNR compares that image with the grey input |
| Compression.CompressionMain | topics/image_compression.py:74-81 | `main` raises (no image) exactly when the grey input and the reconstruction differ in shape, because the subtraction inside `calculate_psnr` (line 40) fails; otherwise it returns the reconstruction |
| Compression.LosslessOnGrid | topics/image_compression.py:54-77 | if the decomposition is already on the step grid and the transform pair inverts exactly, the grey image comes back unchanged with PSNR `+inf`, and `main` returns that image without raising |
| Compression.ZeroDecompositionPassesThrough | topics/image_compression.py:54-74 | an all-zero decomposition survives quantization, so the reconstruction is that of the unquantized decomposition |
| Enhancement.ClampBrightness | topics/image_enhancement.py:8 | the brightness factor ends in [0, 5]: unchanged inside the range, 0 below it, 5 above it |
| Enhancement.ClampContrast | topics/image_enhancement.py:13 | the contrast factor ends in [1, 5]: unchanged inside the range, 1 below it, 5 above it |
| Enhancement.ClampsIdempotent | topics/image_enhancement.py:8-13 | clamping an already clamped factor changes nothing |
| Enhancement.SharpenKernel | topics/image_enhancement.py:30-34 | the sharpening kernel is 3x3 with centre 9 and eight neighbours -1, so its entries sum to 1 |
| Enhancement.SelectTechnique | topics/image_enhancement.py:40-56 | a selected technique is the one whose menu key was typed, and an answer that is no menu key selects nothing |
| Enhancement.SelectMenuKey | topics/image_enhancement.py:40-56 | each technique is selected by its own key and by no other answer |
| Enhancement.ApplyTechnique | topics/image_enhancement.py:6-35 | each technique is one library call: brightness and contrast scale by the clamped factor with offset 0; Gaussian noise has mean 0 and sigma 25; the blur kernel is 5x5 with sigma 0; sharpening filters with output depth -1 and the sharpening kernel |
| Enhancement.EnhanceByMenuKey | topics/image_enhancement.py:39-55 | typing a technique's menu key applies exactly that technique, and the brightness and contrast filters then get a factor in [0, 5] and [1, 5] |
| Enhancement.EnhanceImage | topics/image_enhancement.py:37-60 | options 1 to 6 each apply exactly their own filter with the helpers' fixed constants and the clamped factors; any other answer returns the image unchanged |
| Filenames.Split | main.py:42 | `str.split` yields at least one piece and no piece contains the separator |
| Filenames.SplitCount | main.py:42 | a split has one more piece than the string has separators |
| Filenames.JoinSplit | main.py:42 | joining the pieces of a split with the separator gives back the string |
| Filenames.SplitJoin | main.py:42 | splitting a join of separator-free pieces gives back the pieces |
| Filenames.SplitAroundSeparator | main.py:42 | splitting `a + sep + b` gives the pieces of `a` followed by the pieces of `b` |
| Cli.WindowTitle | main.py:21-30 | choice 1 gives the title `enhanced` and choice 2 gives `reconstructed`; every other choice gives no title; titles are dot-free |
| Cli.ShouldSaveExactly | main.py:41 | the image is saved exactly when the answer is `y` or `Y` |
| Cli.SplitStemExtension | main.py:42 | a successful unpack gives a dot-free stem and a dot-free extension that rejoin around one dot to the path |
| Cli.SplitStemExtensionSucceeds | main.py:42 | the two-way unpack succeeds if and only if the path contains exactly one dot |
| Cli.DerivedNameRoundTrip | main.py:42-43 | the new name starts with the stem, then `_title`, and ends with `.ext`; it has exactly one dot and splits back into `(stem_title, ext)` |
| Cli.OutputFilename | main.py:42-43 | a name is derived exactly when the path has one dot; it is `stem_title.ext` for the stem and extension of the unpack; with a dot-free title it again has exactly one dot |
| Cli.RunScript | main.py:7-46 | the script stops for a wrong argument count, for an invalid choice, and when the compression `main` raises; otherwise it saves exactly for a yes answer and a one-dot path, under the derived name, and a yes answer with any other path fails in the unpack |
| Cli.TopicIo | main.py:21-27 | the calls main.py makes are the two topic `main`s: choice 1 runs the enhancement menu, choice 2 runs the compression pipeline, which either returns its image or raises |
| Cli.RunScriptWithTopics | main.py:21-44 | with the topic `main`s wired in, a saved run writes the enhanced image for choice 1 and the reconstruction of the quantized grey decomposition for choice 2, and choice 2 stops with an error exactly when that reconstruction and the grey image differ in shape |
| Cli.DottedDirectoryRejected | main.py:42 | a path whose directory part contains a dot cannot be unpacked into stem and extension |
| Cli.SplitAtLastDot | main.py:42-43 | splitting at the last dot succeeds for every path with a dot, leaves a dot-free extension, and rejoins to the path |
| Cli.SplitAtLastDotAgrees | main.py:42 | wherever the two-way unpack succeeds, splitting at the last dot gives the same stem and extension |
| Cli.SplitAtLastDotAcceptsDottedDirectory | main.py:42 | splitting at the last dot accepts a path with a dotted directory and keeps the directory in the stem |

## Findings

| source | as written | input that shows it | evidently intended | confidence | as-written member | corrected member |
|---|---|---|---|---|---|---|
| main.py:42 | `filename, extension = image_path.split(".")` needs exactly one dot in the whole path | `./cat.png`, or any path under a directory whose name contains a dot, raises `ValueError` when the user asks to save | split off the extension at the last dot, as `image_path.rsplit(".", 1)` does | high, not executed | Cli.DottedDirectoryRejected | Cli.SplitAtLastDot |

`Cli.RunScript` follows the code as written, so it reports such a path as an
unpack failure. `Cli.SplitAtLastDotAgrees` shows that the corrected split
gives the same result on every path the original accepts.

## Left out

- The Haar transform `pywt.dwt2`/`idwt2` is an uninterpreted function pair. Its filters use the irrational 1/sqrt 2, and it lives in a foreign library. Odd dimensions and colour input are also left out, because the code never defines them.
- Fidelity.Psnr: the decibel value `20 * log10(255 / sqrt(mse))` is kept symbolic as the positive MSE it comes from, because it is floating-point numerics.
- Fidelity.Psnr: NumPy broadcasting of unequal but compatible shapes is not modelled. Any shape difference is reported as `ShapeMismatch`.
- Quantization.Quantize: the `float32` cast of the quantized subbands is not modelled, because coefficients are ideal reals.
- Quantization.QuantizeCoeff: a zero step is excluded by `requires step != 0.0`. The code does not check it, and NumPy would then produce infinities and NaNs, which reals cannot express.
- Enhancement.ClampBrightness: NaN and infinite factors typed at the prompt are not modelled, because the factor is a real.
- Enhancement.EnhanceImage: the `float(input(...))` parse and its `ValueError` are not modelled. The factor arrives already parsed.
- `cv2.convertScaleAbs`, `cv2.add` saturation, `GaussianBlur`, `filter2D` and the `np.random` noise generators are uninterpreted parameters. They are opaque library behaviour, and the noise is nondeterministic.
- `input()`, `print`, `cv2.imread`, `cv2.imshow`/`waitKey`/`destroyAllWindows`, `cv2.imwrite` and the `encoded_image.dat` file are I/O. They become parameters or answered prompts, and the file round trip is exact. A failing `imread` is not modelled.
- `cv2.resize(image, (500, 500))` is a pure foreign call. It is folded into the uninterpreted `Io.readResized` together with the read, so the 500x500 size is not visible to the model.
- `cv2.cvtColor(image, COLOR_BGR2GRAY)` is a pure conversion inside a foreign library. It is the uninterpreted `Library.toGray`, and colour images share the grey grid type.
- Compression.CompressionMain: unequal shapes that NumPy would broadcast, and so subtract without raising, are treated as raising as well.
- Compression.CompressImage: the `int(input(...))` parse of the step and the `ValueError` it raises on non-numeric input are not modelled. The step arrives already parsed.
- Cli.ShouldSaveExactly: `str.lower` is modelled for ASCII letters only. Unicode case mapping is outside the model.
- The `window_title.capitalize()` used only as a display caption is left out, because it affects only the display.

=== FILE: cli.dfy ===
/** The script main.py: the argument check, the menu that picks enhancement
    or compression and the window title, the save prompt, and the derived
    output file name. Reading, resizing, showing and writing images are
    OpenCV calls and stay uninterpreted. */
module Cli {
  import opened Wrappers
  import opened Matrices
  import opened Filenames
  import Enhancement
  import Compression

  /** `len(sys.argv) != 2` aborts: exactly one argument must follow the
      program name. */
  predicate ArgumentsOk(argv: seq<string>) {
    |argv| == 2
  }

  /** The `window_title` each menu choice sets; any other choice aborts
      before a title is used. */
  function WindowTitle(choice: string): (t: Option<string>)
    ensures t.Some? <==> choice == "1" || choice == "2"
    ensures t.Some? ==> '.' !in t.value && |t.value| > 0
    ensures choice == "1" ==> t == Some("enhanced")
    ensures choice == "2" ==> t == Some("reconstructed")
  {
    if choice == "1" then Some("enhanced")
    else if choice == "2" then Some("reconstructed")
    else None
  }

  /** `str.lower` on one character, for the ASCII letters. */
  function LowerChar(c: char): char {
    if 'A' <= c <= 'Z' then (c as int + 32) as char else c
  }

  /** `str.lower` for ASCII text. */
  function Lower(s: string): (r: string)
    ensures |r| == |s|
    ensures forall i :: 0 <= i < |s| ==> r[i] == LowerChar(s[i])
  {
    seq(|s|, i requires 0 <= i < |s| => LowerChar(s[i]))
  }

  /** `should_save.lower() == 'y'`. */
  predicate ShouldSave(answer: string) {
    Lower(answer) == "y"
  }

  /** Exactly the answers `y` and `Y` save; anything else exits. */
  lemma ShouldSaveExactly(answer: string)
    ensures ShouldSave(answer) <==> answer == "y" || answer == "Y"
  {
    if ShouldSave(answer) {
      assert |answer| == 1;
      assert LowerChar(answer[0]) == 'y';
      assert answer == [answer[0]];
    }
  }

  /** `filename, extension = image_path.split(".")`: the unpack succeeds only
      for exactly two pieces. */
  function SplitStemExtension(path: string): (r: Option<(string, string)>)
    ensures r.Some? ==> path == r.value.0 + "." + r.value.1
    ensures r.Some? ==> '.' !in r.value.0 && '.' !in r.value.1
  {
    var parts := Split(path, '.');
    JoinSplit(path, '.');
    if |parts| == 2 then Some((parts[0], parts[1])) else None
  }

  /** The unpack succeeds exactly when the path has one dot; zero or several
      dots make it fail. */
  lemma SplitStemExtensionSucceeds(path: string)
    ensures SplitStemExtension(path).Some? <==> Count(path, '.') == 1
  {
    SplitCount(path, '.');
  }

  /** A path whose directory part holds a dot, such as `./cat.png` or
      `my.photos/cat.png`, has at least two dots, so the two-way unpack fails
      although the file has an ordinary extension. */
  lemma DottedDirectoryRejected(dir: string, name: string, extension: string)
    requires '.' in dir
    ensures SplitStemExtension(dir + "/" + name + "." + extension) == None
  {
    var path := dir + "/" + name + "." + extension;
    CountConcat(dir, "/", '.');
    CountConcat(dir + "/", name, '.');
    CountConcat(dir + "/" + name, ".", '.');
    CountConcat(dir + "/" + name + ".", extension, '.');
    CountPositive(dir, '.');
    assert Count(path, '.') >= 2;
    SplitStemExtensionSucceeds(path);
  }

  /** Last position of `c` in `s`, if any. */
  function LastIndex(s: string, c: char): (r: Option<nat>)
    ensures r.None? <==> c !in s
    ensures r.Some? ==> r.value < |s| && s[r.value] == c && c !in s[r.value + 1..]
  {
    if |s| == 0 then None
    else if s[|s| - 1] == c then Some(|s| - 1)
    else
      var r := LastIndex(s[..|s| - 1], c);
      assert s == s[..|s| - 1] + [s[|s| - 1]];
      if r.Some? then
        assert s[r.value + 1..] == s[..|s| - 1][r.value + 1..] + [s[|s| - 1]];
        r
      else r
  }

  /** Stem and extension split at the last dot, as `path.rsplit(".", 1)`
      would: any path with a dot splits, the extension is dot-free, and the
      pieces rejoin to the path. */
  function SplitAtLastDot(path: string): (r: Option<(string, string)>)
    ensures r.Some? <==> '.' in path
    ensures r.Some? ==> path == r.value.0 + "." + r.value.1 && '.' !in r.value.1
  {
    match LastIndex(path, '.')
    case None => None
    case Some(i) =>
      assert path == path[..i] + "." + path[i + 1..];
      Some((path[..i], path[i + 1..]))
  }

  /** A string splits around a dot with a dot-free right-hand piece in at
      most one way. */
  lemma LastDotSplitUnique(a: string, b: string, a': string, b': string)
    requires '.' !in b && '.' !in b'
    requires a + "." + b == a' + "." + b'
    ensures a == a' && b == b'
  {
    var s := a + "." + b;
    assert s[|a|] == '.' && s[|a'|] == '.';
    assert forall k :: |a| < k < |s| ==> s[k] == b[k - |a| - 1];
    assert forall k :: |a'| < k < |s| ==> s[k] == b'[k - |a'| - 1];
    assert |a| == |a'|;
    assert a == s[..|a|] && a' == s[..|a'|];
    assert b == s[|a| + 1..] && b' == s[|a'| + 1..];
  }

  /** Wherever the two-way unpack succeeds, splitting at the last dot gives
      the same stem and extension. */
  lemma SplitAtLastDotAgrees(path: string)
    ensures SplitStemExtension(path).Some? ==> SplitAtLastDot(path) == SplitStemExtension(path)
  {
    var r := SplitStemExtension(path);
    if r.Some? {
      var (stem, extension) := r.value;
      assert path[|stem|] == '.';
      var (stem', extension') := SplitAtLastDot(path).value;
      LastDotSplitUnique(stem, extension, stem', extension');
    }
  }

  /** Unlike the two-way unpack, splitting at the last dot accepts a path
      whose directory part holds a dot, and keeps the whole directory in the
      stem. */
  lemma SplitAtLastDotAcceptsDottedDirectory(dir: string, name: string, extension: string)
    requires '.' !in extension
    ensures SplitAtLastDot(dir + "/" + name + "." + extension) == Some((dir + "/" + name, extension))
  {
    var stem := dir + "/" + name;
    var path := dir + "/" + name + "." + extension;
    assert path == stem + "." + extension;
    assert path[|stem|] == '.';
    var (stem', extension') := SplitAtLastDot(path).value;
    LastDotSplitUnique(stem, extension, stem', extension');
  }

  /** `f"{filename}_{window_title}.{extension}"`. */
  function DerivedName(stem: string, title: string, extension: string): string {
    stem + "_" + title + "." + extension
  }

  /** The derived name keeps the stem in front and the extension at the end,
      and, both titles being dot-free, it again has exactly one dot and
      splits back into the tagged stem and the original extension. */
  lemma DerivedNameRoundTrip(stem: string, title: string, extension: string)
    requires '.' !in stem && '.' !in title && '.' !in extension
    ensures DerivedName(stem, title, extension)[..|stem|] == stem
    ensures DerivedName(stem, title, extension)[|stem|..|stem| + 1 + |title|] == "_" + title
    ensures DerivedName(stem, title, extension)[|DerivedName(stem, title, extension)| - |extension| - 1..] == "." + extension
    ensures Count(DerivedName(stem, title, extension), '.') == 1
    ensures SplitStemExtension(DerivedName(stem, title, extension)) == Some((stem + "_" + title, extension))
  {
    var tagged := stem + "_" + title;
    var name := DerivedName(stem, title, extension);
    assert name == tagged + ['.'] + extension;
    assert '.' !in tagged by {
      CountConcat(stem, "_", '.');
      CountConcat(stem + "_", title, '.');
      CountPositive(stem, '.');
      CountPositive(title, '.');
      CountPositive(tagged, '.');
    }
    SplitPair(tagged, extension, '.');
  }

  /** `new_filename` from the image path and the title, or `None` where the
      two-way unpack raises. */
  function OutputFilename(path: string, title: string): (r: Option<string>)
    ensures r.Some? <==> Count(path, '.') == 1
    ensures r.Some? && '.' !in title ==> Count(r.value, '.') == 1
    ensures r.Some? ==> SplitStemExtension(path).Some?
                        && r.value == DerivedName(SplitStemExtension(path).value.0, title,
                                                  SplitStemExtension(path).value.1)
  {
    SplitStemExtensionSucceeds(path);
    match SplitStemExtension(path)
    case None => None
    case Some((stem, extension)) =>
      var name := DerivedName(stem, title, extension);
      assert '.' !in title ==> Count(name, '.') == 1 by {
        if '.' !in title {
          DerivedNameRoundTrip(stem, title, extension);
        }
      }
      Some(name)
  }

  /** How a run of the script ends. */
  datatype Outcome =
    | UsageExit                                    // wrong argument count
    | InvalidChoiceExit                            // menu answer other than 1 or 2
    | NotSaved(title: string, result: Matrix)      // shown, then declined to save
    | Saved(filename: string, result: Matrix)      // `cv2.imwrite(new_filename, new_image)`
    | UnpackError(title: string, result: Matrix)   // the path did not split into two
    | CompressionError                             // `calculate_psnr` raised inside compression

  /** The calls the script makes into the rest of the system, kept
      uninterpreted: `cv2.resize(cv2.imread(path), (500, 500))` and the two
      topic `main`s with their own prompts already answered. The compression
      `main` can raise, which `compress` reports as `None`. */
  datatype Io = Io(
    readResized: string -> Matrix,
    enhance: Matrix -> Matrix,
    compress: Matrix -> Option<Matrix>)

  /** The whole script with its prompts answered by `choice` and `saveAnswer`.
      An exception raised by the compression `main` ends the script before
      anything is shown or saved. */
  function RunScript(argv: seq<string>, choice: string, saveAnswer: string, io: Io): (r: Outcome)
    ensures r == UsageExit <==> !ArgumentsOk(argv)
    ensures r == InvalidChoiceExit <==> ArgumentsOk(argv) && WindowTitle(choice).None?
    ensures r == CompressionError <==> ArgumentsOk(argv) && choice == "2" && io.compress(io.readResized(argv[1])).None?
    ensures r.Saved? <==> ArgumentsOk(argv) && WindowTitle(choice).Some?
                          && (choice == "2" ==> io.compress(io.readResized(argv[1])).Some?)
                          && ShouldSave(saveAnswer) && Count(argv[1], '.') == 1
    ensures r.UnpackError? <==> ArgumentsOk(argv) && WindowTitle(choice).Some?
                                && (choice == "2" ==> io.compress(io.readResized(argv[1])).Some?)
                                && ShouldSave(saveAnswer) && Count(argv[1], '.') != 1
    ensures r.Saved? ==> exists stem, extension :: argv[1] == stem + "." + extension
                           && r.filename == DerivedName(stem, WindowTitle(choice).value, extension)
    ensures r.Saved? && choice == "1" ==> r.result == io.enhance(io.readResized(argv[1]))
    ensures r.Saved? && choice == "2" ==> io.compress(io.readResized(argv[1])) == Some(r.result)
  {
    if !ArgumentsOk(argv) then UsageExit
    else
      var imagePath := argv[1];
      var image := io.readResized(imagePath);
      match WindowTitle(choice)
      case None => InvalidChoiceExit
      case Some(title) =>
        var processed := if choice == "1" then Some(io.enhance(image)) else io.compress(image);
        match processed
        case None => CompressionError
        case Some(newImage) =>
          if !ShouldSave(saveAnswer) then NotSaved(title, newImage)
          else
            SplitStemExtensionSucceeds(imagePath);
            match OutputFilename(imagePath, title)
            case None => UnpackError(title, newImage)
            case Some(name) => Saved(name, newImage)
  }

  /** The calls main.py makes, built from the two topic `main`s with their
      prompts answered: the enhancement menu answer and factor, and the
      quantization step. */
  function TopicIo(readResized: string -> Matrix, option: string, alpha: real, filters: Enhancement.Filters,
                   lib: Compression.Library, step: int): (io: Io)
    requires step != 0
    ensures io.readResized == readResized
    ensures forall image :: io.enhance(image) == Enhancement.EnhanceImage(option, alpha, image, filters)
    ensures forall image :: io.compress(image) == Compression.CompressionMain(lib, image, step)
  {
    Io(readResized,
       image => Enhancement.EnhanceImage(option, alpha, image, filters),
       image => Compression.CompressionMain(lib, image, step))
  }

  /** With the topic `main`s plugged in (as `TopicIo` does), a saved run
      writes the enhanced image for choice 1 and the reconstruction of the
      quantized grey decomposition for choice 2, and choice 2 stops with an
      error exactly when that reconstruction cannot be compared with the
      grey image. */
  lemma RunScriptWithTopics(argv: seq<string>, choice: string, saveAnswer: string, io: Io,
                            option: string, alpha: real, filters: Enhancement.Filters,
                            lib: Compression.Library, step: int)
    requires step != 0
    requires forall image :: io.enhance(image) == Enhancement.EnhanceImage(option, alpha, image, filters)
    requires forall image :: io.compress(image) == Compression.CompressionMain(lib, image, step)
    ensures RunScript(argv, choice, saveAnswer, io).Saved? && choice == "1" ==>
              RunScript(argv, choice, saveAnswer, io).result
              == Enhancement.EnhanceImage(option, alpha, io.readResized(argv[1]), filters)
    ensures RunScript(argv, choice, saveAnswer, io).Saved? && choice == "2" ==>
              RunScript(argv, choice, saveAnswer, io).result
              == Compression.CompressImage(lib, io.readResized(argv[1]), step).0
    ensures RunScript(argv, choice, saveAnswer, io) == CompressionError <==>
              ArgumentsOk(argv) && choice == "2"
              && !SameShape(lib.toGray(io.readResized(argv[1])),
                            Compression.CompressImage(lib, io.readResized(argv[1]), step).0)
  {
    var r := RunScript(argv, choice, saveAnswer, io);
    if ArgumentsOk(argv) {
      var image := io.readResized(argv[1]);
      assert io.enhance(image) == Enhancement.EnhanceImage(option, alpha, image, filters);
      assert io.compress(image) == Compression.CompressionMain(lib, image, step);
    }
  }
}

=== FILE: coding.dfy ===
/** The lossless stages between quantization and reconstruction in
    topics/image_compression.py: the placeholder entropy coder and the pickle
    round trip through `encoded_image.dat`. */
module Coding {
  import opened Quantization

  /** `entropy_encode`: a placeholder that hands back its input. The decoder
      recovers the coefficients exactly. */
  function EntropyEncode(x: Coeffs): (e: Coeffs)
    ensures EntropyDecode(e) == x
  {
    x
  }

  /** `entropy_decode`: the inverse placeholder. */
  function EntropyDecode(e: Coeffs): (x: Coeffs)
  {
    e
  }

  /** The whole chain `main` runs between quantization and reconstruction:
      encode, dump, load and decode give back every subband set exactly. */
  lemma EntropyRoundTrip(x: Coeffs)
    ensures EntropyDecode(Load(Dump(EntropyEncode(x)))) == x
  {
  }

  /** The contents of `encoded_image.dat` after `pickle.dump`. */
  datatype StoredFile = StoredFile(pickled: Coeffs)

  /** `pickle.dump` into the file; loading it back gives the dumped value. */
  function Dump(e: Coeffs): (f: StoredFile)
    ensures Load(f) == e
  {
    StoredFile(e)
  }

  /** `pickle.load` from the file. */
  function Load(f: StoredFile): Coeffs
  {
    f.pickled
  }
}

=== FILE: compression.dfy ===
/** The `main` of topics/image_compression.py: decompose, quantize, encode,
    persist and reload, decode, reconstruct, and measure the PSNR. */
module Compression {
  import opened Wrappers
  import opened Matrices
  import opened Quantization
  import opened Coding
  import opened Fidelity

  /** The library calls the pipeline depends on, kept uninterpreted:
      `cv2.cvtColor(image, COLOR_BGR2GRAY)` and the wavelet pair
      `pywt.dwt2(image, wavelet)` / `pywt.idwt2(coeffs, wavelet)`. A colour
      image is represented by the same grid type as a grey one. */
  datatype Library = Library(
    toGray: Matrix -> Matrix,
    dwt2: (Matrix, string) -> Coeffs,
    idwt2: (Coeffs, string) -> Matrix)

  /** The wavelet both `subband_decomposition` and `subband_reconstruction`
      use when none is given. */
  const DefaultWavelet: string := "haar"

  /** `subband_decomposition(image)`: one level of the transform with the
      default Haar wavelet. The `cA, (cH, cV, cD)` unpack cannot fail on a
      `Coeffs` value. */
  function Decompose(lib: Library, image: Matrix): (r: Coeffs)
    ensures r == lib.dwt2(image, "haar")
  {
    lib.dwt2(image, DefaultWavelet)
  }

  /** `subband_reconstruction(coeffs)`: the four subbands repacked in the
      order `(cA, (cH, cV, cD))` and inverted with the default Haar wavelet. */
  function Reconstruct(lib: Library, x: Coeffs): (r: Matrix)
    ensures r == lib.idwt2(Coeffs(x.cA, Details(x.details.cH, x.details.cV, x.details.cD)), "haar")
  {
    var Coeffs(cA, Details(cH, cV, cD)) := x;
    lib.idwt2(Coeffs(cA, Details(cH, cV, cD)), DefaultWavelet)
  }

  /** `main(image)` with the step the user typed: returns the reconstructed
      image and the PSNR it prints. The identity coding stages and the exact
      file round trip contribute nothing, so the result is the reconstruction
      of the quantized decomposition, compared against the grey input. */
  function CompressImage(lib: Library, image: Matrix, step: int): (r: (Matrix, PsnrValue))
    requires step != 0
    ensures r.0 == Reconstruct(lib, Quantize(Decompose(lib, lib.toGray(image)), step as real))
    ensures r.1 == Psnr(lib.toGray(image), r.0)
  {
    var gray := lib.toGray(image);
    var coeffs := Decompose(lib, gray);
    var quantized := Quantize(coeffs, step as real);
    var encoded := EntropyEncode(quantized);
    var file := Dump(encoded);
    var encodedData := Load(file);
    var decoded := EntropyDecode(encodedData);
    var reconstructed := Reconstruct(lib, decoded);
    (reconstructed, Psnr(gray, reconstructed))
  }

  /** `main(image)` as its caller sees it: the reconstructed image, or
      `None` where `calculate_psnr` raises because the grey input and the
      reconstruction have shapes that cannot be subtracted. */
  function CompressionMain(lib: Library, image: Matrix, step: int): (r: Option<Matrix>)
    requires step != 0
    ensures r.None? <==> !SameShape(lib.toGray(image), CompressImage(lib, image, step).0)
    ensures r.Some? ==> r.value == CompressImage(lib, image, step).0
  {
    var (reconstructed, psnr) := CompressImage(lib, image, step);
    if psnr == ShapeMismatch then None else Some(reconstructed)
  }

  /** When the decomposition already lies on the step grid (an all-zero image
      decomposes to all-zero subbands, for one) and the transform pair
      inverts exactly, the pipeline is lossless: the grey image comes back
      unchanged and the PSNR is `+inf`. */
  lemma LosslessOnGrid(lib: Library, image: Matrix, step: int)
    requires step != 0
    requires Size(lib.toGray(image)) > 0
    requires CoeffsOnGrid(Decompose(lib, lib.toGray(image)), step as real)
    requires Reconstruct(lib, Decompose(lib, lib.toGray(image))) == lib.toGray(image)
    ensures CompressImage(lib, image, step).0 == lib.toGray(image)
    ensures CompressImage(lib, image, step).1 == PlusInfinity
    ensures CompressionMain(lib, image, step) == Some(lib.toGray(image))
  {
    QuantizeFixedPoints(Decompose(lib, lib.toGray(image)), step as real);
  }

  /** Zero subbands survive quantization, so an image whose decomposition is
      all zero reconstructs from the unchanged decomposition. */
  lemma ZeroDecompositionPassesThrough(lib: Library, image: Matrix, step: int)
    requires step != 0
    requires forall b :: 0 <= b < 4 ==> AllZero(Bands(Decompose(lib, lib.toGray(image)))[b])
    ensures CompressImage(lib, image, step).0 == Reconstruct(lib, Decompose(lib, lib.toGray(image)))
  {
    QuantizeZero(Decompose(lib, lib.toGray(image)), step as real);
  }
}

=== FILE: enhancement.dfy ===
/** The enhancement menu of topics/image_enhancement.py: the clamped
    brightness and contrast factors, the sharpening kernel, and which filter
    each menu option applies. The filters themselves are OpenCV and NumPy
    calls and stay uninterpreted. */
module Enhancement {
  import opened Matrices
  import opened Wrappers

  /** Python's two-argument `min`: the first argument unless the second is
      strictly smaller. */
  function Min(a: real, b: real): (r: real)
    ensures r <= a && r <= b
    ensures r == a || r == b
  {
    if b < a then b else a
  }

  /** Python's two-argument `max`: the first argument unless the second is
      strictly larger. */
  function Max(a: real, b: real): (r: real)
    ensures r >= a && r >= b
    ensures r == a || r == b
  {
    if b > a then b else a
  }

  /** `max(0, min(alpha, 5.0))` in `adjust_brightness`: the factor lands in
      [0, 5], inputs below the range become 0 and inputs above become 5. */
  function ClampBrightness(alpha: real): (a: real)
    ensures 0.0 <= a <= 5.0
    ensures 0.0 <= alpha <= 5.0 ==> a == alpha
    ensures alpha < 0.0 ==> a == 0.0
    ensures alpha > 5.0 ==> a == 5.0
  {
    Max(0.0, Min(alpha, 5.0))
  }

  /** `max(1, min(alpha, 5.0))` in `adjust_contrast`: the factor lands in
      [1, 5], inputs below the range become 1 and inputs above become 5. */
  function ClampContrast(alpha: real): (a: real)
    ensures 1.0 <= a <= 5.0
    ensures 1.0 <= alpha <= 5.0 ==> a == alpha
    ensures alpha < 1.0 ==> a == 1.0
    ensures alpha > 5.0 ==> a == 5.0
  {
    Max(1.0, Min(alpha, 5.0))
  }

  /** Clamping an already clamped factor changes nothing. */
  lemma ClampsIdempotent(alpha: real)
    ensures ClampBrightness(ClampBrightness(alpha)) == ClampBrightness(alpha)
    ensures ClampContrast(ClampContrast(alpha)) == ClampContrast(alpha)
  {
  }

  /** Sum of all entries of an integer kernel. */
  function KernelSum(k: seq<seq<int>>): int {
    if |k| == 0 then 0 else RowSum(k[0]) + KernelSum(k[1..])
  }

  /** Sum of one kernel row. */
  function RowSum(row: seq<int>): int {
    if |row| == 0 then 0 else row[0] + RowSum(row[1..])
  }

  /** The 3x3 kernel `sharpen_image` passes to `cv2.filter2D`: centre 9, the
      eight neighbours -1, so the weights sum to 1 and a flat region keeps
      its brightness. */
  function SharpenKernel(): (k: seq<seq<int>>)
    ensures |k| == 3 && forall i :: 0 <= i < 3 ==> |k[i]| == 3
    ensures k[1][1] == 9
    ensures forall i, j :: 0 <= i < 3 && 0 <= j < 3 && !(i == 1 && j == 1) ==> k[i][j] == -1
    ensures KernelSum(k) == 1
  {
    [[-1, -1, -1],
     [-1,  9, -1],
     [-1, -1, -1]]
  }

  /** The six techniques the menu offers. */
  datatype Technique = Brightness | Contrast | GaussianNoise | SpeckleNoise | Blur | Sharpen

  /** The menu entry that selects each technique. */
  function MenuKey(t: Technique): string {
    match t
    case Brightness => "1"
    case Contrast => "2"
    case GaussianNoise => "3"
    case SpeckleNoise => "4"
    case Blur => "5"
    case Sharpen => "6"
  }

  /** The `if`/`elif` chain of `main`: which technique an answer selects, if any.
      A selected technique is the one whose menu key was typed; no answer
      other than a menu key selects anything. */
  function SelectTechnique(option: string): (r: Option<Technique>)
    ensures r.Some? ==> MenuKey(r.value) == option
    ensures r.None? ==> forall t: Technique :: MenuKey(t) != option
  {
    if option == "1" then Some(Brightness)
    else if option == "2" then Some(Contrast)
    else if option == "3" then Some(GaussianNoise)
    else if option == "4" then Some(SpeckleNoise)
    else if option == "5" then Some(Blur)
    else if option == "6" then Some(Sharpen)
    else None
  }

  /** Each technique is selected by its own menu key and by no other. */
  lemma SelectMenuKey(t: Technique, option: string)
    ensures SelectTechnique(MenuKey(t)) == Some(t)
    ensures SelectTechnique(option) == Some(t) <==> option == MenuKey(t)
  {
  }

  /** The library filters the menu dispatches to, kept uninterpreted:
      `cv2.convertScaleAbs(image, alpha, beta)`, the two noise generators
      (whose randomness lives inside them), `cv2.GaussianBlur(image, ksize,
      sigma)` and `cv2.filter2D(image, depth, kernel)`. */
  datatype Filters = Filters(
    convertScaleAbs: (Matrix, real, real) -> Matrix,
    gaussianNoise: (Matrix, real, real) -> Matrix,
    speckleNoise: Matrix -> Matrix,
    gaussianBlur: (Matrix, (nat, nat), real) -> Matrix,
    filter2D: (Matrix, int, seq<seq<int>>) -> Matrix)

  /** The single filter call one technique makes, with its fixed
      constants (the default arguments of the helper functions). */
  function ApplyTechnique(t: Technique, alpha: real, image: Matrix, f: Filters): (r: Matrix)
    ensures t == Brightness ==> r == f.convertScaleAbs(image, ClampBrightness(alpha), 0.0)
    ensures t == Contrast ==> r == f.convertScaleAbs(image, ClampContrast(alpha), 0.0)
    ensures t == GaussianNoise ==> r == f.gaussianNoise(image, 0.0, 25.0)
    ensures t == SpeckleNoise ==> r == f.speckleNoise(image)
    ensures t == Blur ==> r == f.gaussianBlur(image, (5, 5), 0.0)
    ensures t == Sharpen ==> r == f.filter2D(image, -1, SharpenKernel())
  {
    match t
    case Brightness => f.convertScaleAbs(image, ClampBrightness(alpha), 0.0)
    case Contrast => f.convertScaleAbs(image, ClampContrast(alpha), 0.0)
    case GaussianNoise => f.gaussianNoise(image, 0.0, 25.0)
    case SpeckleNoise => f.speckleNoise(image)
    case Blur => f.gaussianBlur(image, (5, 5), 0.0)
    case Sharpen => f.filter2D(image, -1, SharpenKernel())
  }

  /** `main(image)` with the answers already read: `option` is the menu
      answer and `alpha` the factor typed after options 1 and 2. Options 1
      to 6 each apply exactly their own filter; any other answer returns the
      image untouched. */
  function EnhanceImage(option: string, alpha: real, image: Matrix, f: Filters): (r: Matrix)
    ensures option == "1" ==> r == f.convertScaleAbs(image, ClampBrightness(alpha), 0.0)
    ensures option == "2" ==> r == f.convertScaleAbs(image, ClampContrast(alpha), 0.0)
    ensures option == "3" ==> r == f.gaussianNoise(image, 0.0, 25.0)
    ensures option == "4" ==> r == f.speckleNoise(image)
    ensures option == "5" ==> r == f.gaussianBlur(image, (5, 5), 0.0)
    ensures option == "6" ==> r == f.filter2D(image, -1, SharpenKernel())
    ensures (forall t: Technique :: MenuKey(t) != option) ==> r == image
  {
    match SelectTechnique(option)
    case None => image
    case Some(t) => ApplyTechnique(t, alpha, image, f)
  }

  /** Typing a technique's menu key applies exactly that technique. The
      last two clauses follow from the first and the clamps' ranges; they are
      spelled out so the factor each filter receives can be read off
      directly. */
  lemma EnhanceByMenuKey(t: Technique, alpha: real, image: Matrix, f: Filters)
    ensures EnhanceImage(MenuKey(t), alpha, image, f) == ApplyTechnique(t, alpha, image, f)
    ensures t == Brightness ==> exists a :: 0.0 <= a <= 5.0
                                  && EnhanceImage(MenuKey(t), alpha, image, f) == f.convertScaleAbs(image, a, 0.0)
    ensures t == Contrast ==> exists a :: 1.0 <= a <= 5.0
                                && EnhanceImage(MenuKey(t), alpha, image, f) == f.convertScaleAbs(image, a, 0.0)
  {
    SelectMenuKey(t, MenuKey(t));
    if t == Brightness {
      var a := ClampBrightness(alpha);
      assert EnhanceImage(MenuKey(t), alpha, image, f) == f.convertScaleAbs(image, a, 0.0);
    } else if t == Contrast {
      var a := ClampContrast(alpha);
      assert EnhanceImage(MenuKey(t), alpha, image, f) == f.convertScaleAbs(image, a, 0.0);
    }
  }
}

=== FILE: fidelity.dfy ===
/** Mean squared error and the PSNR decision of `calculate_psnr`
    (topics/image_compression.py). */
module Fidelity {
  import opened RealArith
  import opened Matrices
  import opened Wrappers
  import opened Quantization

  /** What `calculate_psnr` returns. The decibel figure
      `20 * log10(255 / sqrt(mse))` is kept symbolic as the MSE it is computed
      from. */
  datatype PsnrValue =
    | PlusInfinity            // mse == 0: exact reconstruction
    | Decibels(mse: real)     // a finite PSNR computed from a positive mse
    | NotANumber              // the mean of zero samples
    | ShapeMismatch           // the element-wise difference is undefined

  /** Sum of squared differences along one row. */
  function RowSqDiff(a: seq<real>, b: seq<real>): real
    requires |a| == |b|
  {
    if |a| == 0 then 0.0
    else Sq(a[0] - b[0]) + RowSqDiff(a[1..], b[1..])
  }

  /** Sum of squared differences over a whole grid, `((a - b) ** 2).sum()`. */
  function SumSqDiff(a: Matrix, b: Matrix): real
    requires SameShape(a, b)
  {
    if |a| == 0 then 0.0
    else RowSqDiff(a[0], b[0]) + SumSqDiff(a[1..], b[1..])
  }

  /** A row's squared error is non-negative, and zero exactly when the rows agree. */
  lemma {:induction false} RowSqDiffZero(a: seq<real>, b: seq<real>)
    requires |a| == |b|
    ensures RowSqDiff(a, b) >= 0.0
    ensures RowSqDiff(a, b) == 0.0 <==> a == b
  {
    if |a| > 0 {
      RowSqDiffZero(a[1..], b[1..]);
      var d := a[0] - b[0];
      SquarePositive(d);
      assert RowSqDiff(a, b) == Sq(d) + RowSqDiff(a[1..], b[1..]);
      assert a == [a[0]] + a[1..] && b == [b[0]] + b[1..];
      if d != 0.0 {
        assert RowSqDiff(a, b) > 0.0;
      } else if a[1..] != b[1..] {
        assert RowSqDiff(a, b) > 0.0;
      } else {
        assert a == b;
      }
    }
  }

  /** The total squared error is non-negative, and zero exactly when the grids
      are identical. */
  lemma {:induction false} SumSqDiffZero(a: Matrix, b: Matrix)
    requires SameShape(a, b)
    ensures SumSqDiff(a, b) >= 0.0
    ensures SumSqDiff(a, b) == 0.0 <==> a == b
  {
    if |a| > 0 {
      RowSqDiffZero(a[0], b[0]);
      SumSqDiffZero(a[1..], b[1..]);
      assert a == [a[0]] + a[1..] && b == [b[0]] + b[1..];
    }
  }

  /** `np.mean((original - reconstructed) ** 2)`; there is no mean of zero
      samples. */
  function Mse(a: Matrix, b: Matrix): (r: Option<real>)
    requires SameShape(a, b)
    ensures r.None? <==> Size(a) == 0
    ensures r.Some? ==> r.value >= 0.0
    ensures r.Some? ==> (r.value == 0.0 <==> a == b)
  {
    SumSqDiffZero(a, b);
    if Size(a) == 0 then None
    else Some(SumSqDiff(a, b) / Size(a) as real)
  }

  /** `calculate_psnr`: `+inf` when the MSE is exactly zero, otherwise a
      finite PSNR from the positive MSE. */
  function Psnr(original: Matrix, reconstructed: Matrix): (r: PsnrValue)
    ensures r == ShapeMismatch <==> !SameShape(original, reconstructed)
    ensures r == PlusInfinity <==> SameShape(original, reconstructed) && Size(original) > 0 && original == reconstructed
    ensures r == NotANumber <==> SameShape(original, reconstructed) && Size(original) == 0
    ensures r.Decibels? ==> r.mse > 0.0 && original != reconstructed
    ensures r.Decibels? ==> SameShape(original, reconstructed) && Mse(original, reconstructed) == Some(r.mse)
  {
    if !SameShape(original, reconstructed) then ShapeMismatch
    else match Mse(original, reconstructed)
      case None => NotANumber
      case Some(mse) => if mse == 0.0 then PlusInfinity else Decibels(mse)
  }

  /** Comparing an image with itself gives `+inf` whenever it has a sample. */
  lemma PsnrOfIdentical(image: Matrix)
    requires Size(image) > 0
    ensures Psnr(image, image) == PlusInfinity
  {
  }

  /** A row whose every squared difference is at most `bound` sums to at most
      its length times `bound`. */
  lemma {:induction false} RowSqDiffBounded(a: seq<real>, b: seq<real>, bound: real)
    requires |a| == |b|
    requires forall j :: 0 <= j < |a| ==> Sq(a[j] - b[j]) <= bound
    ensures RowSqDiff(a, b) <= Times(|a|, bound)
  {
    if |a| > 0 {
      RowSqDiffBounded(a[1..], b[1..], bound);
    }
  }

  /** A grid whose every squared difference is at most `bound` sums to at most
      its size times `bound`. */
  lemma SumSqDiffBounded(a: Matrix, b: Matrix, bound: real)
    requires SameShape(a, b)
    requires forall i, j :: 0 <= i < |a| && 0 <= j < |a[i]| ==> Sq(a[i][j] - b[i][j]) <= bound
    ensures SumSqDiff(a, b) <= Times(Size(a), bound)
  {
    forall i | 0 <= i < |a|
      ensures RowSqDiff(a[i], b[i]) <= Times(|a[i]|, bound)
    {
      RowSqDiffBounded(a[i], b[i], bound);
    }
    RowBoundsAddUp(a, b, bound);
  }

  /** Rows each summing to at most their length times `bound` make a grid
      summing to at most its size times `bound`. */
  lemma {:induction false} RowBoundsAddUp(a: Matrix, b: Matrix, bound: real)
    requires SameShape(a, b)
    requires forall i :: 0 <= i < |a| ==> RowSqDiff(a[i], b[i]) <= Times(|a[i]|, bound)
    ensures SumSqDiff(a, b) <= Times(Size(a), bound)
  {
    if |a| > 0 {
      assert SameShape(a[1..], b[1..]);
      assert forall i :: 0 <= i < |a[1..]| ==> a[1..][i] == a[i + 1] && b[1..][i] == b[i + 1];
      RowBoundsAddUp(a[1..], b[1..], bound);
      TimesAdd(|a[0]|, Size(a[1..]), bound);
    }
  }

  /** A grid pair whose every squared difference is at most `bound` has an
      MSE of at most `bound`. */
  lemma MseBounded(a: Matrix, b: Matrix, bound: real)
    requires SameShape(a, b)
    requires Size(a) > 0
    requires forall i, j :: 0 <= i < |a| && 0 <= j < |a[i]| ==> Sq(a[i][j] - b[i][j]) <= bound
    ensures Mse(a, b).Some? && Mse(a, b).value <= bound
  {
    SumSqDiffBounded(a, b, bound);
    TimesIsProduct(Size(a), bound);
    QuotientBound(SumSqDiff(a, b), Size(a) as real, bound);
  }

  /** The squared error of one quantized coefficient is at most the square
      of half the step. */
  lemma CoeffSquaredError(c: real, step: real)
    requires step != 0.0
    ensures Sq(c - QuantizeCoeff(c, step)) <= Sq(Abs(step) / 2.0)
  {
    var q := QuantizeCoeff(c, step);
    assert Abs(c - q) == Abs(q - c);
    SquareBound(c - q, Abs(step) / 2.0);
  }

  /** The distortion quantization introduces in one subband: its MSE against
      the unquantized subband is at most a quarter of the squared step. */
  lemma QuantizationMseBound(m: Matrix, step: real)
    requires step != 0.0
    requires Size(m) > 0
    ensures Mse(m, QuantizeMatrix(m, step)).Some?
    ensures Mse(m, QuantizeMatrix(m, step)).value <= Sq(step) / 4.0
  {
    var q := QuantizeMatrix(m, step);
    var h := Abs(step) / 2.0;
    forall i, j | 0 <= i < |m| && 0 <= j < |m[i]|
      ensures Sq(m[i][j] - q[i][j]) <= Sq(h)
    {
      CoeffSquaredError(m[i][j], step);
    }
    MseBounded(m, q, Sq(h));
    SqHalf(Abs(step));
    SqAbs(step);
  }
}

=== FILE: filenames.dfy ===
/** Python's `str.split(sep)` on a single-character separator and its
    inverse `sep.join(parts)`, the string operations behind the output file
    name in main.py. */
module Filenames {

  /** Occurrences of `c` in `s`. */
  function Count(s: string, c: char): nat {
    multiset(s)[c]
  }

  /** Occurrences add up over a concatenation. */
  lemma CountConcat(a: string, b: string, c: char)
    ensures Count(a + b, c) == Count(a, c) + Count(b, c)
  {
    assert multiset(a + b) == multiset(a) + multiset(b);
  }

  /** A character occurs exactly when it is counted. */
  lemma CountPositive(s: string, c: char)
    ensures Count(s, c) > 0 <==> c in s
  {
  }

  /** No piece contains the separator. */
  predicate SeparatorFree(parts: seq<string>, sep: char) {
    forall i :: 0 <= i < |parts| ==> sep !in parts[i]
  }

  /** `s.split(sep)`: the maximal separator-free pieces between occurrences of
      `sep`; one more piece than there are separators. */
  function Split(s: string, sep: char): (parts: seq<string>)
    ensures |parts| >= 1
    ensures SeparatorFree(parts, sep)
    decreases |s|
  {
    if |s| == 0 then [""]
    else
      var rest := Split(s[1..], sep);
      assert s == [s[0]] + s[1..];
      if s[0] == sep then [""] + rest
      else
        assert sep !in [s[0]] + rest[0];
        [[s[0]] + rest[0]] + rest[1..]
  }

  /** `sep.join(parts)`. */
  function Join(parts: seq<string>, sep: char): string {
    if |parts| == 0 then ""
    else if |parts| == 1 then parts[0]
    else parts[0] + [sep] + Join(parts[1..], sep)
  }

  /** A split has one more piece than the string has separators. */
  lemma {:induction false} SplitCount(s: string, sep: char)
    ensures |Split(s, sep)| == Count(s, sep) + 1
    decreases |s|
  {
    if |s| > 0 {
      SplitCount(s[1..], sep);
      assert s == [s[0]] + s[1..];
    }
  }

  /** Splitting a string around a separator splits each side. */
  lemma {:induction false} SplitAroundSeparator(a: string, b: string, sep: char)
    ensures Split(a + [sep] + b, sep) == Split(a, sep) + Split(b, sep)
    decreases |a|
  {
    var s := a + [sep] + b;
    if |a| == 0 {
      assert s[1..] == b;
    } else {
      assert s[1..] == a[1..] + [sep] + b;
      SplitAroundSeparator(a[1..], b, sep);
    }
  }

  /** A separator-free string is one piece. */
  lemma SplitWithoutSeparator(s: string, sep: char)
    requires sep !in s
    ensures Split(s, sep) == [s]
  {
    SplitCount(s, sep);
    assert Split(s, sep)[0] == s by {
      JoinSplit(s, sep);
    }
  }

  /** Joining the pieces of a split gives back the string. */
  lemma {:induction false} JoinSplit(s: string, sep: char)
    ensures Join(Split(s, sep), sep) == s
    decreases |s|
  {
    if |s| > 0 {
      JoinSplit(s[1..], sep);
      JoinSplitStep(s, sep);
    }
  }

  /** One step of `JoinSplit`: if the tail's pieces join back to the tail,
      the whole string's pieces join back to the whole string. */
  lemma JoinSplitStep(s: string, sep: char)
    requires |s| > 0
    requires Join(Split(s[1..], sep), sep) == s[1..]
    ensures Join(Split(s, sep), sep) == s
  {
    var rest := Split(s[1..], sep);
    var parts := Split(s, sep);
    assert s == [s[0]] + s[1..];
    if s[0] == sep {
      assert parts[1..] == rest;
    } else if |rest| > 1 {
      assert parts[1..] == rest[1..];
      assert Join(rest, sep) == rest[0] + [sep] + Join(rest[1..], sep);
    }
  }

  /** Splitting a join of separator-free pieces gives back the pieces. */
  lemma {:induction false} SplitJoin(parts: seq<string>, sep: char)
    requires |parts| >= 1
    requires SeparatorFree(parts, sep)
    ensures Split(Join(parts, sep), sep) == parts
  {
    SplitWithoutSeparator(parts[0], sep);
    if |parts| > 1 {
      SplitJoin(parts[1..], sep);
      SplitAroundSeparator(parts[0], Join(parts[1..], sep), sep);
      assert parts == [parts[0]] + parts[1..];
    }
  }

  /** Two separator-free pieces around one separator split back into those
      two pieces, and the string holds that one separator only. */
  lemma SplitPair(a: string, b: string, sep: char)
    requires sep !in a && sep !in b
    ensures Split(a + [sep] + b, sep) == [a, b]
    ensures Count(a + [sep] + b, sep) == 1
  {
    SplitAroundSeparator(a, b, sep);
    SplitWithoutSeparator(a, sep);
    SplitWithoutSeparator(b, sep);
    SplitCount(a + [sep] + b, sep);
  }
}

=== FILE: matrices.dfy ===
/** Two-dimensional grids of ideal real samples: the images and wavelet
    subbands the compression pipeline passes between its stages. */
module Matrices {

  /** Row-major grid; the arrays NumPy hands around are always rectangular. */
  type Matrix = seq<seq<real>>

  /** Every row has the same length as the first. */
  predicate Rectangular(m: Matrix) {
    forall i :: 0 <= i < |m| ==> |m[i]| == |m[0]|
  }

  /** Row-by-row equal dimensions, the condition element-wise array
      arithmetic needs. */
  predicate SameShape(a: Matrix, b: Matrix) {
    |a| == |b| && forall i :: 0 <= i < |a| ==> |a[i]| == |b[i]|
  }

  /** Number of samples in a grid. */
  function Size(m: Matrix): (n: nat)
    ensures |m| == 0 ==> n == 0
    ensures Rectangular(m) && |m| > 0 ==> n == |m| * |m[0]|
  {
    if |m| == 0 then 0
    else
      var rest := Size(m[1..]);
      assert Rectangular(m) ==> Rectangular(m[1..]) && (|m| > 1 ==> |m[1..][0]| == |m[0]|);
      |m[0]| + rest
  }

  /** Every sample is zero. */
  predicate AllZero(m: Matrix) {
    forall i, j :: 0 <= i < |m| && 0 <= j < |m[i]| ==> m[i][j] == 0.0
  }
}

=== FILE: quantization.dfy ===
/** Scalar uniform quantization of the four wavelet subbands
    (`scalar_quantization` in topics/image_compression.py). */
module Quantization {
  import opened RealArith
  import opened Rounding
  import opened Matrices

  /** The detail subbands `(cH, cV, cD)` of one decomposition level. */
  datatype Details = Details(cH: Matrix, cV: Matrix, cD: Matrix)

  /** The `(cA, (cH, cV, cD))` coefficient record `pywt.dwt2` returns. */
  datatype Coeffs = Coeffs(cA: Matrix, details: Details)

  /** The four subbands in the order approximation, horizontal, vertical,
      diagonal. */
  function Bands(x: Coeffs): (bs: seq<Matrix>)
    ensures |bs| == 4
    ensures bs[0] == x.cA && bs[1] == x.details.cH
    ensures bs[2] == x.details.cV && bs[3] == x.details.cD
  {
    [x.cA, x.details.cH, x.details.cV, x.details.cD]
  }

  /** A decomposition as the transform produces it: four rectangular
      subbands of one common shape. */
  predicate WellFormed(x: Coeffs) {
    && Rectangular(x.cA)
    && SameShape(x.cA, x.details.cH)
    && SameShape(x.cA, x.details.cV)
    && SameShape(x.cA, x.details.cD)
  }

  /** `q` is a whole multiple of `step`: `q / step` has no fractional part. */
  predicate OnGrid(q: real, step: real)
    requires step != 0.0
  {
    (q / step).Floor as real == q / step
  }

  /** Quantization index of one coefficient: `np.round(c / step)`. */
  function Level(c: real, step: real): int
    requires step != 0.0
  {
    RoundHalfEven(c / step)
  }

  /** One coefficient snapped to the step grid: `np.round(c / step) * step`.
      The result is a whole multiple of the step and lies within half a
      step of the input. */
  function QuantizeCoeff(c: real, step: real): (q: real)
    requires step != 0.0
    ensures OnGrid(q, step)
    ensures Abs(q - c) <= Abs(step) / 2.0
  {
    var n := Level(c, step);
    ScaledLevelError(c, step, n);
    n as real * step
  }

  /** An integer `n` within one half of `c / step` gives a multiple of the
      step within half a step of `c`. */
  lemma ScaledLevelError(c: real, step: real, n: int)
    requires step != 0.0
    requires Abs(n as real - c / step) <= 0.5
    ensures OnGrid(n as real * step, step)
    ensures Abs(n as real * step - c) <= Abs(step) / 2.0
  {
    var d := n as real - c / step;
    MulDiv(n as real, step);
    assert (n as real * step) / step == n as real;
    FactorStep(n as real, c, step);
    AbsOfProduct(d, step);
    ScaleBound(Abs(d), 0.5, Abs(step));
    calc {
      Abs(n as real * step - c);
      == Abs(d * step);
      == Abs(d) * Abs(step);
      <= 0.5 * Abs(step);
      == Abs(step) / 2.0;
    }
  }

  /** A coefficient is left unchanged exactly when it already lies on the grid. */
  lemma QuantizeCoeffFixedPoints(c: real, step: real)
    requires step != 0.0
    ensures QuantizeCoeff(c, step) == c <==> OnGrid(c, step)
  {
    if OnGrid(c, step) {
      var k := (c / step).Floor;
      RoundOfInteger(k);
      assert Level(c, step) == k;
      assert c == (c / step) * step;
    }
  }

  /** Quantizing twice with the same step is quantizing once. */
  lemma QuantizeCoeffIdempotent(c: real, step: real)
    requires step != 0.0
    ensures QuantizeCoeff(QuantizeCoeff(c, step), step) == QuantizeCoeff(c, step)
  {
    QuantizeCoeffFixedPoints(QuantizeCoeff(c, step), step);
  }

  /** Negating the step or the coefficient negates the level. */
  lemma LevelNegate(c: real, step: real)
    requires step != 0.0
    ensures Level(c, -step) == -Level(c, step)
    ensures Level(-c, step) == -Level(c, step)
  {
    DivNegate(c, step);
    RoundNegate(c / step);
  }

  /** The sign of the step does not matter (the step is read as a signed
      integer), and quantization is odd in the coefficient. */
  lemma QuantizeCoeffSymmetric(c: real, step: real)
    requires step != 0.0
    ensures QuantizeCoeff(c, -step) == QuantizeCoeff(c, step)
    ensures QuantizeCoeff(-c, step) == -QuantizeCoeff(c, step)
  {
    var n := Level(c, step);
    LevelNegate(c, step);
    assert (-n) as real == -(n as real);
    assert QuantizeCoeff(c, -step) == (-n) as real * -step;
    assert QuantizeCoeff(-c, step) == (-n) as real * step;
    NegateFactors(n as real, step);
  }

  /** Every subband is quantized the same way, coefficient by coefficient. */
  function QuantizeMatrix(m: Matrix, step: real): (r: Matrix)
    requires step != 0.0
    ensures SameShape(r, m)
    ensures forall i, j :: 0 <= i < |m| && 0 <= j < |m[i]| ==> r[i][j] == QuantizeCoeff(m[i][j], step)
  {
    seq(|m|, i requires 0 <= i < |m| =>
      seq(|m[i]|, j requires 0 <= j < |m[i]| => QuantizeCoeff(m[i][j], step)))
  }

  /** `scalar_quantization`: the same rule applied to each of the four
      subbands independently, keeping the `(cA, (cH, cV, cD))` structure. */
  function Quantize(x: Coeffs, step: real): (r: Coeffs)
    requires step != 0.0
    ensures forall b :: 0 <= b < 4 ==> Bands(r)[b] == QuantizeMatrix(Bands(x)[b], step)
    ensures WellFormed(x) ==> WellFormed(r)
  {
    Coeffs(QuantizeMatrix(x.cA, step),
           Details(QuantizeMatrix(x.details.cH, step),
                   QuantizeMatrix(x.details.cV, step),
                   QuantizeMatrix(x.details.cD, step)))
  }

  /** Every coefficient of the subband lies on the step grid. */
  predicate MatrixOnGrid(m: Matrix, step: real)
    requires step != 0.0
  {
    forall i, j :: 0 <= i < |m| && 0 <= j < |m[i]| ==> OnGrid(m[i][j], step)
  }

  /** Every coefficient of all four subbands lies on the step grid. */
  predicate CoeffsOnGrid(x: Coeffs, step: real)
    requires step != 0.0
  {
    forall b :: 0 <= b < 4 ==> MatrixOnGrid(Bands(x)[b], step)
  }

  /** Error bound: each quantized coefficient of each subband is within half
      a step of the original coefficient, and lies on the grid. */
  lemma QuantizeBound(x: Coeffs, step: real)
    requires step != 0.0
    ensures forall b, i, j :: 0 <= b < 4 && 0 <= i < |Bands(x)[b]| && 0 <= j < |Bands(x)[b][i]| ==>
      Abs(Bands(Quantize(x, step))[b][i][j] - Bands(x)[b][i][j]) <= Abs(step) / 2.0
    ensures CoeffsOnGrid(Quantize(x, step), step)
  {
    var r := Quantize(x, step);
    forall b, i, j | 0 <= b < 4 && 0 <= i < |Bands(x)[b]| && 0 <= j < |Bands(x)[b][i]|
      ensures Abs(Bands(r)[b][i][j] - Bands(x)[b][i][j]) <= Abs(step) / 2.0
    {
      assert Bands(r)[b][i][j] == QuantizeCoeff(Bands(x)[b][i][j], step);
    }
  }

  /** A subband is a fixed point of quantization exactly when it is on the grid. */
  lemma QuantizeMatrixFixedPoints(m: Matrix, step: real)
    requires step != 0.0
    ensures QuantizeMatrix(m, step) == m <==> MatrixOnGrid(m, step)
  {
    var r := QuantizeMatrix(m, step);
    if MatrixOnGrid(m, step) {
      forall i | 0 <= i < |m| ensures r[i] == m[i] {
        forall j | 0 <= j < |m[i]| ensures r[i][j] == m[i][j] {
          QuantizeCoeffFixedPoints(m[i][j], step);
        }
      }
    } else {
      var i, j :| 0 <= i < |m| && 0 <= j < |m[i]| && !OnGrid(m[i][j], step);
      QuantizeCoeffFixedPoints(m[i][j], step);
      assert r[i][j] != m[i][j];
    }
  }

  /** A subband set is left unchanged by quantization exactly when all its
      coefficients are already on the grid. */
  lemma QuantizeFixedPoints(x: Coeffs, step: real)
    requires step != 0.0
    ensures Quantize(x, step) == x <==> CoeffsOnGrid(x, step)
  {
    forall b | 0 <= b < 4 {
      QuantizeMatrixFixedPoints(Bands(x)[b], step);
    }
    if Quantize(x, step) != x {
      var r := Quantize(x, step);
      assert Bands(r) != Bands(x);
    }
  }

  /** Quantizing an already-quantized subband set with the same step returns
      it unchanged. */
  lemma QuantizeIdempotent(x: Coeffs, step: real)
    requires step != 0.0
    ensures Quantize(Quantize(x, step), step) == Quantize(x, step)
  {
    QuantizeBound(x, step);
    QuantizeFixedPoints(Quantize(x, step), step);
  }

  /** Zero coefficients stay zero, so an all-zero subband set is unchanged. */
  lemma QuantizeZero(x: Coeffs, step: real)
    requires step != 0.0
    requires forall b :: 0 <= b < 4 ==> AllZero(Bands(x)[b])
    ensures QuantizeCoeff(0.0, step) == 0.0
    ensures Quantize(x, step) == x
  {
    QuantizeCoeffFixedPoints(0.0, step);
    forall b | 0 <= b < 4 ensures MatrixOnGrid(Bands(x)[b], step) {
      var m := Bands(x)[b];
      forall i, j | 0 <= i < |m| && 0 <= j < |m[i]| ensures OnGrid(m[i][j], step) {
        assert m[i][j] == 0.0;
      }
    }
    QuantizeFixedPoints(x, step);
  }

  /** The quantization error is not monotone in the step: the coefficient 3
      is exact with step 3 but off by one with step 2 (3 / 2 = 1.5 rounds to
      the even level 2). */
  lemma ErrorNotMonotoneInStep()
    ensures QuantizeCoeff(3.0, 3.0) == 3.0
    ensures QuantizeCoeff(3.0, 2.0) == 4.0
    ensures Abs(QuantizeCoeff(3.0, 2.0) - 3.0) > Abs(QuantizeCoeff(3.0, 3.0) - 3.0)
  {
    RoundOfInteger(1);
    RoundHalfEvenCharacterized(1.5, 2);
  }
}

=== FILE: real_arith.dfy ===
/** Facts about absolute values and products of ideal reals that the
    quantizer's error bounds rest on. */
module RealArith {

  /** Absolute value of a real. */
  function Abs(x: real): (r: real)
    ensures r >= 0.0
    ensures r == x || r == -x
    ensures x >= 0.0 ==> r == x
  {
    if x < 0.0 then -x else x
  }

  /** Product of absolute values, used to scale the rounding error by the step. */
  lemma AbsOfProduct(a: real, b: real)
    ensures Abs(a * b) == Abs(a) * Abs(b)
  {
    if a < 0.0 && b >= 0.0 {
      assert a * b <= 0.0;
    } else if a >= 0.0 && b < 0.0 {
      assert a * b <= 0.0;
    } else if a < 0.0 && b < 0.0 {
      assert a * b > 0.0;
    } else {
      assert a * b >= 0.0;
    }
  }

  /** A product of two non-negative reals is non-negative. */
  lemma ProductNonNegative(a: real, b: real)
    requires a >= 0.0 && b >= 0.0
    ensures a * b >= 0.0
  {
  }

  /** The square of a real. */
  function Sq(d: real): real {
    d * d
  }

  /** A square is non-negative, and positive unless its root is zero. */
  lemma SquarePositive(d: real)
    ensures Sq(d) >= 0.0
    ensures d != 0.0 ==> Sq(d) > 0.0
  {
    if d > 0.0 {
      calc { Sq(d); == d * d; > 0.0; }
    } else if d < 0.0 {
      calc { Sq(d); == (-d) * (-d); > 0.0; }
    }
  }

  /** Multiplication distributes over addition. */
  lemma DistributeRight(x: real, y: real, k: real)
    ensures (x + y) * k == x * k + y * k
  {
  }

  /** Dividing a bounded total by a positive count bounds the mean. */
  lemma QuotientBound(total: real, n: real, bound: real)
    requires n > 0.0
    requires total <= n * bound
    ensures total / n <= bound
  {
    assert total / n * n == total;
  }

  /** Squaring preserves a bound on the magnitude. */
  lemma SquareBound(d: real, h: real)
    requires Abs(d) <= h
    ensures Sq(d) <= Sq(h)
  {
    var a := Abs(d);
    ProductNonNegative(h - a, a);
    ProductNonNegative(h - a, h);
    calc {
      Sq(d);
    ==
      a * a;
    <=
      h * a;
    <=
      h * h;
    ==
      Sq(h);
    }
  }

  /** A square does not see the sign of its root. */
  lemma SqAbs(x: real)
    ensures Sq(Abs(x)) == Sq(x)
  {
    if x < 0.0 {
      calc { Sq(Abs(x)); == (-x) * (-x); == x * x; == Sq(x); }
    }
  }

  /** Halving the root quarters the square. */
  lemma SqHalf(x: real)
    ensures Sq(x / 2.0) == Sq(x) / 4.0
  {
    calc { Sq(x / 2.0); == (x / 2.0) * (x / 2.0); == (x * x) / 4.0; == Sq(x) / 4.0; }
  }

  /** Dividing by a negated divisor, or dividing a negated dividend, negates
      the quotient. */
  lemma DivNegate(c: real, s: real)
    requires s != 0.0
    ensures c / -s == -(c / s)
    ensures -c / s == -(c / s)
  {
    calc { c / -s; == (-c) / s; == -(c / s); }
  }

  /** Multiplying by a non-zero divisor and dividing by it again is the identity. */
  lemma MulDiv(n: real, s: real)
    requires s != 0.0
    ensures (n * s) / s == n
  {
  }

  /** The distance from `c` to `n * s` is `s` times the distance from
      `c / s` to `n`. */
  lemma FactorStep(n: real, c: real, s: real)
    requires s != 0.0
    ensures n * s - c == (n - c / s) * s
  {
    calc { (n - c / s) * s; == n * s - (c / s) * s; == n * s - c; }
  }

  /** Negating both factors keeps a product; negating one negates it. */
  lemma NegateFactors(a: real, b: real)
    ensures (-a) * (-b) == a * b
    ensures (-a) * b == -(a * b)
  {
  }

  /** A non-negative factor preserves an upper bound. */
  lemma ScaleBound(e: real, h: real, k: real)
    requires 0.0 <= e <= h && k >= 0.0
    ensures e * k <= h * k
  {
    ProductNonNegative(h - e, k);
    calc { h * k - e * k; == (h - e) * k; >= 0.0; }
  }

  /** `n` copies of `k` added up: `n * k` built by repeated addition, so that
      bounds on sums can be proved without products. */
  function Times(n: nat, k: real): real {
    if n == 0 then 0.0 else k + Times(n - 1, k)
  }

  /** Repeated addition distributes over a sum of counts. */
  lemma {:induction false} TimesAdd(m: nat, n: nat, k: real)
    ensures Times(m + n, k) == Times(m, k) + Times(n, k)
  {
    if m > 0 {
      TimesAdd(m - 1, n, k);
      assert m + n - 1 == (m - 1) + n;
    }
  }

  /** Repeated addition is multiplication. */
  lemma {:induction false} TimesIsProduct(n: nat, k: real)
    ensures Times(n, k) == n as real * k
  {
    if n > 0 {
      TimesIsProduct(n - 1, k);
      DistributeRight((n - 1) as real, 1.0, k);
    }
  }
}

=== FILE: rounding.dfy ===
/** Round-half-to-even on ideal reals, the rule NumPy's `round` follows. */
module Rounding {
  import opened RealArith

  /** `n` is an admissible round-half-to-even of `x`: it lies within one half
      of `x`, and when `x` sits exactly halfway between two integers it is the
      even one. */
  predicate IsHalfEvenRounding(x: real, n: int) {
    && Abs(x - n as real) <= 0.5
    && (Abs(x - n as real) == 0.5 ==> n % 2 == 0)
  }

  /** Nearest integer to `x`, ties broken towards the even neighbour. Built
      from the floor of `x` and the size of its fractional part. */
  function RoundHalfEven(x: real): (n: int)
    ensures IsHalfEvenRounding(x, n)
  {
    var f := x.Floor;
    var frac := x - f as real;
    if frac < 0.5 then f
    else if frac > 0.5 then f + 1
    else if f % 2 == 0 then f
    else f + 1
  }

  /** The half-even rounding of a real is unique, so `RoundHalfEven` is the
      only function meeting its contract. */
  lemma HalfEvenRoundingUnique(x: real, n: int, m: int)
    requires IsHalfEvenRounding(x, n)
    requires IsHalfEvenRounding(x, m)
    ensures n == m
  {
    assert -1 <= n - m <= 1;
  }

  /** Any admissible rounding is the one `RoundHalfEven` computes. */
  lemma RoundHalfEvenCharacterized(x: real, n: int)
    ensures IsHalfEvenRounding(x, n) <==> RoundHalfEven(x) == n
  {
    if IsHalfEvenRounding(x, n) {
      HalfEvenRoundingUnique(x, n, RoundHalfEven(x));
    }
  }

  /** Whole numbers round to themselves. */
  lemma RoundOfInteger(k: int)
    ensures RoundHalfEven(k as real) == k
  {
    HalfEvenRoundingUnique(k as real, k, RoundHalfEven(k as real));
  }

  /** Half-even rounding is symmetric about zero. */
  lemma RoundNegate(x: real)
    ensures RoundHalfEven(-x) == -RoundHalfEven(x)
  {
    var n := RoundHalfEven(x);
    assert Abs(-x - (-n) as real) == Abs(x - n as real);
    assert n % 2 == 0 ==> (-n) % 2 == 0;
    HalfEvenRoundingUnique(-x, -n, RoundHalfEven(-x));
  }

  /** The tie cases NumPy documents: halves go to the even neighbour. */
  lemma TiesGoToEven()
    ensures RoundHalfEven(0.5) == 0
    ensures RoundHalfEven(1.5) == 2
    ensures RoundHalfEven(2.5) == 2
    ensures RoundHalfEven(-0.5) == 0
    ensures RoundHalfEven(-1.5) == -2
  {
    RoundHalfEvenCharacterized(0.5, 0);
    RoundHalfEvenCharacterized(1.5, 2);
    RoundHalfEvenCharacterized(2.5, 2);
    RoundHalfEvenCharacterized(-0.5, 0);
    RoundHalfEvenCharacterized(-1.5, -2);
  }
}

=== FILE: wrappers.dfy ===
/** The optional-value datatype shared by the model's partial operations. */
module Wrappers {

  /** Either no value or `Some(value)`. */
  datatype Option<+T> = None | Some(value: T)
}
